=== FILE: README.md ===
# tracers — a Dafny model of interactive attribute tracing

`tracers` instruments one attribute of a Python class. The class decorator
`trace(attribute, getter=None, setter=None)` copies the attribute's current
value into a shadow entry `"_" + attribute` on the class. It then replaces the
attribute with a property. With no setter supplied, every assignment through an
instance runs a fixed sequence:

1. It locates the assigning call site with `get_caller`.
2. It prints a message describing the pending change.
3. It reads one answer at the `>>> ` prompt. `y` writes the new value into
   the class's shadow entry. `d` prints `Dropping change.`. `q` raises
   `SystemExit`. Any other answer does nothing.

The repository holds two near-identical copies of this code. The packaged
module is `tracers/tracers.py`; the legacy module `tracer/tracer.py` is the one
the demo script imports. This project models both. The parts they share are
defined once:

- `objects.dfy` (module `Objects`): Python values, and a class namespace and an
  instance dictionary as `map<string, Value>`. It also holds the shadow-key
  convention and the two attribute lookups the getters use. A property object
  is the value `PropertyValue(Accessor(traced, fget, fset))`. Its hooks are
  either the module default or a user callable known only by a handle and
  its truth value.
- `text.dfy` (module `Text`): ASCII `str.lower()` and `str.strip()`, with
  Python's full `str.isspace` character set.
- `frames.dfy` (module `Frames`): the `get_caller` frame walk and
  `code[0].strip()`. A stack is a `seq<Frame>` as `get_caller` sees it: index 0
  is its own frame, and the last element is the outermost frame.
- `decisions.dfy` (module `Decisions`): the answer-to-decision mapping
  `Commit | Drop | Quit | Ignore` and its effect on the class namespace. It also
  holds the lines printed and a sequence of answered writes. `Quit` is returned
  rather than ending the process.
- `decoration.dfy` (module `Decoration`): seeding the shadow entry and
  installing the property.

The two copies differ in two places, and each module keeps its own
version of each:

- `tracers.dfy` (module `Tracers`): the default getter reads through the
  instance. The message carries the instance and the old value.
- `tracer.dfy` (module `Tracer`): the default getter ignores the instance and
  reads the class. The message carries the class and no old value.

The interactive answer is a `string` parameter. The call stack is a
`seq<Frame>` parameter. A user-supplied getter or setter is not modelled
beyond its handle: a read or write through it yields `GetDelegated`/`Delegated`.

## Model

| member | source | states |
|---|---|---|
| `Objects.ShadowKey` | tracers/tracers.py:76 | the shadow key is `_` followed by the attribute name, so it never equals the attribute itself |
| `Decoration.Seed` | tracer/tracer.py:113 | the seed is the class's current value of the attribute, or `None` when the class has none |
| `Decoration.Decorate` | tracers/tracers.py:115-124 | after decoration the shadow key holds the seed, and the attribute holds a property for that attribute. Each hook is the default exactly when none was supplied or the one supplied is falsy (the `or` at lines 120-121), otherwise the supplied one. The key set grows by at most those two names, and every other key keeps its value (an existing shadow entry is overwritten without a check) |
| `Tracers.DefaultGetter` | tracers/tracers.py:78-81 | the packaged getter returns the instance's own shadow entry if it has one, otherwise the class's. It raises AttributeError exactly when neither has the key |
| `Tracer.DefaultGetter` | tracer/tracer.py:77-80 | the legacy getter returns the class's shadow entry, and raises AttributeError exactly when the class lacks it |
| `Tracers.SeedFidelity` | tracers/tracers.py:115-122 | right after decoration with the default getter (none supplied, or a falsy one), reading through an instance with no own shadow entry yields the pre-decoration value or `None` |
| `Tracer.SeedFidelity` | tracer/tracer.py:113-120 | right after decoration with the default getter (none supplied, or a falsy one), reading through any instance yields the pre-decoration value or `None` |
| `Tracers.SuppliedHooksReplaceDefaults` | tracers/tracers.py:116-122 | each hook is chosen on its own. A read is delegated exactly when a truthy getter was supplied; otherwise it returns or raises what the default getter does. A write is delegated exactly when a truthy setter was supplied; with no setter, or a falsy one, it runs the default setter. The decision protocol therefore runs exactly when no truthy setter was given |
| `Tracer.SuppliedHooksReplaceDefaults` | tracer/tracer.py:114-120 | the same for the legacy module |
| `Tracers.Get` | tracers/tracers.py:119-122 | a read through the property goes to the supplied getter exactly when one is installed, and otherwise returns or raises what the default getter does |
| `Tracers.Set` | tracers/tracers.py:119-122 | a write through the property goes to the supplied setter exactly when one is installed, and otherwise is the default setter |
| `Tracer.Get` | tracer/tracer.py:117-120 | the same dispatch for the legacy getter |
| `Tracer.Set` | tracer/tracer.py:117-120 | the same dispatch for the legacy setter |
| `Text.Lower` | tracers/tracers.py:103 | lowering keeps the length, leaves no capital ASCII letter, and keeps every other character in place |
| `Text.LowerIsLetter` | tracers/tracers.py:103 | the only inputs that lower to a single lowercase letter are that letter and its capital |
| `Decisions.Decide` | tracers/tracers.py:103-113 | the answer is Commit iff it is `y` or `Y`, Drop iff `d` or `D`, and Quit iff `q` or `Q`. Every other answer, the empty one included, is Ignore |
| `Decisions.DecideIgnoresCase` | tracer/tracer.py:101-111 | an answer and its lowercase form lead to the same decision |
| `Decisions.Apply` | tracers/tracers.py:104-106 | a commit puts the new value under the shadow key. Every other decision leaves the namespace equal to what it was. No key other than the shadow key changes in any case |
| `Decisions.Transcript` | tracers/tracers.py:88-110 | a decided write prints the message, then the `>>> ` prompt, and then the notice `Dropping change.` once if the decision is Drop. Nothing else is printed |
| `Decisions.FirstQuit` | tracers/tracers.py:112-113 | the position of the first write answered `q`/`Q`, or the session length when there is none |
| `Decisions.Replay` | tracer/tracer.py:101-111 | a sequence of answered writes ends the program exactly when some answer is a quit. No key but the shadow entry ever changes |
| `Decisions.ReplayLandsLastCommit` | tracer/tracer.py:101-111 | after a session, the shadow entry holds the value of the last write answered `y`/`Y` before the first quit. If no write before the quit was accepted, it holds its starting value |
| `Decisions.ReplayStopsAtQuit` | tracers/tracers.py:112-113 | the first `q`/`Q` ends the session with the namespace the earlier answers left. Later writes are never offered |
| `Frames.Locate` | tracer/tracer.py:32-50 | the frame reported is always one of the stack's frames, so the walk never goes past the outermost frame |
| `Frames.GetCaller` | tracers/tracers.py:33-51 | the loop that follows `f_back` up to `depth + 1` times and stops at the outermost frame returns frame `min(depth + 1, n - 1)` of an `n`-frame stack (frame 0 when `depth + 1 <= 0` or `n = 1`) |
| `Frames.SetterSeesAssigningFrame` | tracers/tracers.py:86 | called from the default setter with the default depth 1, the walk reports the frame that performed the assignment |
| `Frames.ShallowStackFallsBack` | tracer/tracer.py:42-50 | when the stack has no more than `depth + 1` frames, the outermost frame is reported instead of failing |
| `Frames.SourceLine` | tracers/tracers.py:98 | the code shown is the first context line with surrounding whitespace stripped. A missing context raises TypeError and an empty one raises IndexError |
| `Text.Strip` | tracer/tracer.py:96 | the stripped line has no whitespace at either end and is no longer than the input |
| `Text.StripOfPadded` | tracers/tracers.py:98 | for any whitespace padding around a trimmed core, stripping returns exactly that core |
| `Text.StripIsCore` | tracer/tracer.py:96 | the input is the stripped result with whitespace added only at its two ends |
| `Text.StripIdempotent` | tracers/tracers.py:98 | stripping a stripped line changes nothing |
| `Tracers.BuildMessage` | tracers/tracers.py:86-99 | the packaged message carries the instance, the attribute, the old value as the getter sees it, the new value, the call site's file/line/function and its stripped source line. AttributeError (no shadow entry) takes precedence over the source-line errors |
| `Tracers.DefaultSetter` | tracers/tracers.py:83-113 | the setter raises exactly when the message cannot be built, with the namespace untouched. Otherwise it always reaches a decision (it never delegates) and prints the transcript for the decision the answer selects. A commit writes the new value into the class's shadow entry, while drop, quit and unrecognised answers leave the namespace equal to what it was |
| `Tracers.CommitIsVisible` | tracers/tracers.py:104-106 | after a commit, every instance without its own shadow entry reads the new value |
| `Tracers.InstanceEntryHidesCommit` | tracers/tracers.py:78-81 | an instance holding its own shadow entry keeps reading that entry after any write through it (committed, rejected, or failed in the setter), since the commit goes to the class |
| `Tracers.RejectedWriteKeepsReads` | tracers/tracers.py:108-113 | a write whose answer is not `y`/`Y` leaves every instance's read unchanged |
| `Tracers.SetIsSessionStep` | tracers/tracers.py:103-113 | with the default setter and a message that builds, one write reaches a decision and leaves the namespace a one-write session leaves. It ends the program exactly when that session does |
| `Tracer.BuildMessage` | tracer/tracer.py:85-98 | the legacy message carries the class, the attribute, the new value and the call site, with no old value. Only the source line can make it fail |
| `Tracer.DefaultSetter` | tracer/tracer.py:82-111 | the same decision protocol as the packaged setter, built on the legacy message |
| `Tracer.InstanceIrrelevant` | tracer/tracer.py:77-82 | with the default hooks, reads and writes give the same result whichever instance they go through |
| `Tracer.CommitIsVisible` | tracer/tracer.py:102-104 | after a commit through any instance, every instance reads the new value |
| `Tracer.RejectedWriteKeepsReads` | tracer/tracer.py:106-111 | a write whose answer is not `y`/`Y` leaves every read unchanged |
| `Tracer.SetIsSessionStep` | tracer/tracer.py:101-111 | with the default setter and a readable source line, one write is one step of a session, as for the packaged module |
| `Tracers.SessionIsReplay` | tracers/tracers.py:83-113 | a sequence of assignments through the property, each through its own instance and from its own call site, with the default setter and a message that builds for each, leaves exactly the namespace `Decisions.Replay` computes from the answers and ends the program exactly when it does. So the last accepted write before the first quit is the one that lands |
| `Tracers.SessionStep` | tracers/tracers.py:103-113 | with the default setter and a message that builds, the first write of a session decides by its answer: a quit ends the session with the namespace as it stood, and any other decision applies its effect and the session continues with the rest |
| `Tracer.SessionStep` | tracer/tracer.py:101-111 | the same for the legacy setter, given a readable source line |
| `Tracer.SessionIsReplay` | tracer/tracer.py:82-111 | the same for the legacy setter, given a readable source line at every call site |

## Notes on behaviour

- The decorator performs no collision check: an existing `_<attribute>` entry is overwritten (`Decoration.Decorate`).
- Re-decorating a class seeds the shadow entry with the first property object, because the seed is whatever `getattr(cls, attribute, None)` returns. The model seeds with the stored value, property or not, and proves nothing about re-decoration.
- An unrecognised answer falls off the end of the setter. Nothing is written and no notice is printed. The model keeps this as a fourth decision, `Ignore`, next to `Drop`, which prints `Dropping change.`.
- The packaged getter's docstring says it reads from `cls`, but tracers/tracers.py:81 reads `getattr(obj, sunder)`. An instance's own entry therefore wins (`Tracers.InstanceEntryHidesCommit`).

## Left out

- Console I/O: printing, the rendering of the message through `pytermgui` markup (colours and the `code` alias), and reading input. The message is modelled as its record of template fields, and the answer as a string parameter. End of input (`EOFError` from `input`) is not modelled.
- Process exit: `SystemExit` on `q` is the returned decision `Quit`. The exit status and the unwinding of callers are not modelled.
- `Text.Lower` lowers ASCII letters only, while Python's `str.lower()` is full Unicode. The three answers are ASCII letters, and no other character lowercases to one of them.
- Python's descriptor protocol is abstracted to the `Accessor` value and the `Get`/`Set` dispatch. Inheritance is also left out: lookups follow only the class's own namespace, not its bases.
- `Tracers.DefaultGetter` returns the stored shadow object even when it is a descriptor, while Python's `getattr(obj, sunder)` would invoke it. This happens when the traced name was a `@property` (its getter would run), a method (a bound method would be returned), a `classmethod`/`staticmethod`, or a `__slots__` member, and on re-decoration. `Tracer.DefaultGetter` reads `getattr(cls, sunder)`, which also returns a property, a plain function or a slots member as is, so for those it agrees with Python.
- `Decoration.Seed`: the seed is the raw class-namespace entry, while `getattr(cls, attribute, None)` returns its `__get__(None, cls)` result. For a `classmethod` (a bound method), a `staticmethod` (the underlying function) and a custom descriptor whose `__get__` returns something else, the model seeds a different value from Python.
- User-supplied getters and setters run code outside the model. A read or write through them is reported as delegated, with its effect unknown.
- `Tracers.Session` and `Tracer.Session` stop following a session at an exception out of the setter, reported as exited although a caller could catch it, and at a supplied setter, reported as an unchanged namespace because its effect is unknown. `SessionIsReplay` is stated only for the default setter with messages that build, where neither case arises.
- `inspect.currentframe()` returning `None` (the `assert` in `get_caller`, on interpreters without frame support) is not modelled: the stack always contains `get_caller`'s own frame. `inspect.getframeinfo` is reduced to the `Frame` record it yields.
- Concurrency, packaging (`setup.py`), the re-export module `tracers/__init__.py` and the demo script `tests/general.py` are not part of this model.

=== FILE: decisions.dfy ===
/** The decision protocol of the default setter, common to both source
    files: one line of input, lowered, chooses whether the pending value is
    written into the class-level shadow cell. */
module Decisions {
  import opened Objects
  import Text
  import Frames

  /** `Quit` stands for the `SystemExit` the setter raises; it is returned
      here instead of ending the process. `Ignore` is every answer the setter
      does not recognise: it falls off the end of the setter silently. */
  datatype Decision = Commit | Drop | Quit | Ignore

  const Prompt: string := ">>> "
  const DropNotice: string := "Dropping change."

  /** What one write prints, in order: the rendered message, the prompt, and
      the notice when the change is dropped. */
  datatype Emitted<M> = ShowMessage(message: M) | ShowPrompt(text: string) | ShowNotice(text: string)

  /** The outcome of one write through the installed property: the default
      setter either raised before prompting or reached a decision; a user
      setter runs code outside this model. `ns` is the class namespace after
      the write. */
  datatype SetOutcome<M> =
    | Decided(decision: Decision, ns: Namespace, emitted: seq<Emitted<M>>)
    | Raised(error: PyError, ns: Namespace)
    | Delegated(hook: nat)

  /** The answer typed at the prompt, matched after lowering. */
  function Decide(line: string): (d: Decision)
    ensures d == Commit <==> line == "y" || line == "Y"
    ensures d == Drop <==> line == "d" || line == "D"
    ensures d == Quit <==> line == "q" || line == "Q"
  {
    var inp := Text.Lower(line);
    if inp == "y" then Commit
    else if inp == "d" then Drop
    else if inp == "q" then Quit
    else Ignore
  }

  /** Matching is case-insensitive: an answer and its lowered form decide alike. */
  lemma DecideIgnoresCase(line: string)
    ensures Decide(Text.Lower(line)) == Decide(line)
  {
  }

  /** The effect of a decision on the class namespace: only a commit writes,
      and it writes only the shadow cell. */
  function Apply(d: Decision, ns: Namespace, shadow: string, proposed: Value): (r: Namespace)
    ensures d == Commit ==> shadow in r && r[shadow] == proposed
    ensures d != Commit ==> r == ns
    ensures r - {shadow} == ns - {shadow}
    ensures r.Keys == if d == Commit then ns.Keys + {shadow} else ns.Keys
  {
    if d == Commit then ns[shadow := proposed] else ns
  }

  /** The lines printed around one decision. */
  function Transcript<M>(message: M, d: Decision): (out: seq<Emitted<M>>)
    ensures |out| == if d == Drop then 3 else 2
    ensures out[0] == ShowMessage(message) && out[1] == ShowPrompt(Prompt)
    ensures ShowNotice(DropNotice) in out <==> d == Drop
    ensures forall i :: 2 <= i < |out| ==> out[i] == ShowNotice(DropNotice)
  {
    [ShowMessage(message), ShowPrompt(Prompt)] + (if d == Drop then [ShowNotice(DropNotice)] else [])
  }

  /** A sequence of writes answered at the prompt, as the demo class makes
      them; the session ends at the first quit. */
  datatype Attempt = Attempt(proposed: Value, line: string)

  /** One assignment through the property, as the program makes it: the
      instance written through, the call stack at that moment (each
      assignment has its own call site), and the answer given. */
  datatype Write = Write(obj: Instance, stack: Frames.Stack, attempt: Attempt)

  /** The call site of a write can be shown: its source line can be read. */
  predicate SiteReadable(w: Write)
  {
    Frames.SourceLine(Frames.Locate(w.stack, Frames.SetterDepth)).Ok?
  }

  /** The answered values of a sequence of assignments, in order. */
  function AttemptsOf(writes: seq<Write>): (r: seq<Attempt>)
    ensures |r| == |writes|
    ensures forall i :: 0 <= i < |writes| ==> r[i] == writes[i].attempt
    decreases |writes|
  {
    if |writes| == 0 then [] else [writes[0].attempt] + AttemptsOf(writes[1..])
  }

  /** Where a session stops being followed. `exited` is set by a quit, which
      raises `SystemExit`. A session of real property writes also stops at an
      exception out of the setter, which ends the program unless a caller
      catches it, and at a supplied setter, whose effect this model does not
      know. */
  datatype SessionEnd = SessionEnd(ns: Namespace, exited: bool)

  /** Answers that let a write land. */
  predicate Accepted(a: Attempt)
  {
    Decide(a.line) == Commit
  }

  /** The index of the first write answered with a quit, or the session's
      length when there is none. */
  function FirstQuit(attempts: seq<Attempt>): (q: nat)
    ensures q <= |attempts|
    ensures forall j :: 0 <= j < q ==> Decide(attempts[j].line) != Quit
    ensures q < |attempts| ==> Decide(attempts[q].line) == Quit
    decreases |attempts|
  {
    if |attempts| == 0 || Decide(attempts[0].line) == Quit then 0
    else 1 + FirstQuit(attempts[1..])
  }

  /** Runs the writes in order through the decision protocol; the first quit
      ends the session, as `SystemExit` does, and no key but the shadow cell
      ever changes. */
  function Replay(ns: Namespace, shadow: string, attempts: seq<Attempt>): (e: SessionEnd)
    ensures e.exited <==> FirstQuit(attempts) < |attempts|
    ensures e.ns - {shadow} == ns - {shadow}
    ensures shadow in ns ==> shadow in e.ns
    decreases |attempts|
  {
    if |attempts| == 0 then SessionEnd(ns, false)
    else
      var d := Decide(attempts[0].line);
      if d == Quit then SessionEnd(ns, true)
      else Replay(Apply(d, ns, shadow, attempts[0].proposed), shadow, attempts[1..])
  }

  /** What a session leaves in the shadow cell: the value of the last write
      accepted before the first quit, or the starting value when no write
      before the quit was accepted. */
  lemma {:induction false} ReplayLandsLastCommit(ns: Namespace, shadow: string, attempts: seq<Attempt>)
    requires shadow in ns
    ensures var q := FirstQuit(attempts);
            (forall i :: 0 <= i < q ==> !Accepted(attempts[i]))
              ==> Replay(ns, shadow, attempts).ns[shadow] == ns[shadow]
    ensures var q := FirstQuit(attempts);
            forall i :: 0 <= i < q && Accepted(attempts[i]) && (forall j :: i < j < q ==> !Accepted(attempts[j]))
              ==> Replay(ns, shadow, attempts).ns[shadow] == attempts[i].proposed
    decreases |attempts|
  {
    var q := FirstQuit(attempts);
    if |attempts| > 0 && Decide(attempts[0].line) != Quit {
      var d := Decide(attempts[0].line);
      var ns1 := Apply(d, ns, shadow, attempts[0].proposed);
      var tail := attempts[1..];
      var e := Replay(ns1, shadow, tail);
      assert e == Replay(ns, shadow, attempts);
      assert q == 1 + FirstQuit(tail);
      ReplayLandsLastCommit(ns1, shadow, tail);
      forall i | 0 <= i < |tail|
        ensures tail[i] == attempts[i + 1]
      {
      }
      forall i | 0 <= i < q && Accepted(attempts[i]) && (forall j :: i < j < q ==> !Accepted(attempts[j]))
        ensures e.ns[shadow] == attempts[i].proposed
      {
        if i == 0 {
          assert forall k :: 0 <= k < q - 1 ==> !Accepted(tail[k]) by {
            forall k | 0 <= k < q - 1
              ensures !Accepted(tail[k])
            {
              assert !Accepted(attempts[k + 1]);
            }
          }
        } else {
          assert Accepted(tail[i - 1]);
          forall k | i - 1 < k < q - 1
            ensures !Accepted(tail[k])
          {
            assert !Accepted(attempts[k + 1]);
          }
        }
      }
      if forall i :: 0 <= i < q ==> !Accepted(attempts[i]) {
        assert !Accepted(attempts[0]);
        forall k | 0 <= k < q - 1
          ensures !Accepted(tail[k])
        {
          assert !Accepted(attempts[k + 1]);
        }
      }
    }
  }

  /** A quit ends the session where it stands: later writes are never
      offered, and the namespace is the one the earlier answers left. */
  lemma {:induction false} ReplayStopsAtQuit(ns: Namespace, shadow: string, attempts: seq<Attempt>, i: nat)
    requires i < |attempts| && Decide(attempts[i].line) == Quit
    requires forall j :: 0 <= j < i ==> Decide(attempts[j].line) != Quit
    ensures Replay(ns, shadow, attempts) == SessionEnd(Replay(ns, shadow, attempts[..i]).ns, true)
    decreases i
  {
    if i > 0 {
      var d := Decide(attempts[0].line);
      var ns1 := Apply(d, ns, shadow, attempts[0].proposed);
      var tail := attempts[1..];
      forall j | 0 <= j < i - 1
        ensures Decide(tail[j].line) != Quit
      {
        assert tail[j] == attempts[j + 1];
      }
      ReplayStopsAtQuit(ns1, shadow, tail, i - 1);
      assert attempts[..i][1..] == tail[..i - 1];
    }
  }
}

=== FILE: decoration.dfy ===
/** What `trace(attribute, getter, setter)` does to a class, identical in both
    source files: seed the shadow cell from the attribute's current value,
    then replace the attribute with a property wired to the supplied hooks or
    the module's defaults. */
module Decoration {
  import opened Objects

  /** `getattr(cls, attribute, None)`. */
  function Seed(cls: Class, attribute: string): (v: Value)
    ensures attribute in cls.ns ==> v == cls.ns[attribute]
    ensures attribute !in cls.ns ==> v == NoneValue
  {
    match ClassGet(cls, attribute)
    case Some(v) => v
    case None => NoneValue
  }

  /** The property installed for `attribute`. */
  function Install(attribute: string, getter: Option<Callable>, setter: Option<Callable>): Accessor
  {
    Accessor(attribute, HookFor(getter), HookFor(setter))
  }

  /** The decorator applied to `cls`. It checks nothing about the names it
      writes: an existing attribute under the shadow key is overwritten. */
  function Decorate(cls: Class, attribute: string, getter: Option<Callable>, setter: Option<Callable>): (r: Class)
    ensures r.name == cls.name
    ensures r.ns.Keys == cls.ns.Keys + {attribute, ShadowKey(attribute)}
    ensures r.ns[ShadowKey(attribute)] == Seed(cls, attribute)
    ensures r.ns[attribute].PropertyValue? && r.ns[attribute].accessor.traced == attribute
    ensures r.ns[attribute].accessor.fget.Default? <==> getter.None? || !getter.value.truthy
    ensures r.ns[attribute].accessor.fset.Default? <==> setter.None? || !setter.value.truthy
    ensures r.ns[attribute].accessor.fget.User? ==> r.ns[attribute].accessor.fget.id == getter.value.id
    ensures r.ns[attribute].accessor.fset.User? ==> r.ns[attribute].accessor.fset.id == setter.value.id
    ensures r.ns - {attribute, ShadowKey(attribute)} == cls.ns - {attribute, ShadowKey(attribute)}
  {
    var shadow := ShadowKey(attribute);
    var seeded := cls.ns[shadow := Seed(cls, attribute)];
    Class(cls.name, seeded[attribute := PropertyValue(Install(attribute, getter, setter))])
  }
}

=== FILE: frames.dfy ===
/** Call-site location, shared verbatim by both source files: `get_caller`
    walks `f_back` from its own frame, and the default setter reports the
    first line of the frame's code context, stripped.

    A call stack is a `seq<Frame>` seen from `get_caller`: index 0 is its own
    frame and index `i + 1` is the `f_back` of index `i`; the last element is
    the outermost frame, whose `f_back` is `None`. */
module Frames {
  import opened Objects
  import Text

  /** What `inspect.getframeinfo` reports for one frame. `codeContext` is
      `None` when the source file cannot be read. */
  datatype Frame = Frame(filename: string, lineno: int, funcname: string, codeContext: Option<seq<string>>)

  /** A call stack as `get_caller` sees it: never empty, since it holds
      `get_caller`'s own frame. */
  type Stack = s: seq<Frame> | |s| > 0 witness [Frame("", 0, "", None)]

  /** The depth the default setter passes (the parameter's default value). */
  const SetterDepth: int := 1

  function Min(a: int, b: int): int
  {
    if a <= b then a else b
  }

  /** Which frame `get_caller(depth)` lands on in a stack of `n` frames: it
      takes `depth + 1` steps outward (none when that is negative) and stops
      at the outermost frame. */
  function CallerIndex(n: nat, depth: int): (i: nat)
    requires n > 0
    ensures i < n
  {
    if depth + 1 <= 0 then 0 else Min(depth + 1, n - 1)
  }

  function Locate(stack: seq<Frame>, depth: int): (f: Frame)
    requires |stack| > 0
    ensures f in stack
  {
    stack[CallerIndex(|stack|, depth)]
  }

  /** `get_caller(depth)`: the frame walk exactly as written, including the
      early return when its own frame is outermost. It never fails. */
  method GetCaller(stack: seq<Frame>, depth: int) returns (info: Frame)
    requires |stack| > 0
    ensures info == Locate(stack, depth)
  {
    if |stack| == 1 {
      return stack[0];
    }
    var previous := 0;
    var steps := if depth + 1 < 0 then 0 else depth + 1;
    var taken := 0;
    while taken < steps
      invariant 0 <= taken <= steps
      invariant previous == Min(taken, |stack| - 1)
    {
      if previous + 1 >= |stack| {
        break;
      }
      previous := previous + 1;
      taken := taken + 1;
    }
    return stack[previous];
  }

  /** Called from the default setter, which the property machinery calls
      directly from the assigning code, `get_caller()` reports the frame that
      performed the assignment. */
  lemma SetterSeesAssigningFrame(own: Frame, setter: Frame, outer: seq<Frame>)
    requires |outer| > 0
    ensures Locate([own, setter] + outer, SetterDepth) == outer[0]
  {
  }

  /** With too few frames the walk falls back to the outermost one. */
  lemma ShallowStackFallsBack(stack: seq<Frame>, depth: int)
    requires 0 < |stack| <= depth + 1
    ensures Locate(stack, depth) == stack[|stack| - 1]
  {
  }

  /** `code[0].strip()`: a missing code context (`None`) raises TypeError, an
      empty one raises IndexError. */
  function SourceLine(f: Frame): (r: Result<string>)
    ensures r.Err? <==> f.codeContext.None? || f.codeContext.value == []
    ensures r.Err? && f.codeContext.None? ==> r.error == TypeError
    ensures r.Err? && f.codeContext.Some? ==> r.error == IndexError
    ensures r.Ok? ==> r.value == Text.Strip(f.codeContext.value[0])
  {
    match f.codeContext
    case None => Err(TypeError)
    case Some(lines) =>
      if |lines| == 0 then Err(IndexError) else Ok(Text.Strip(lines[0]))
  }
}

=== FILE: objects.dfy ===
/** The slice of Python's object model that the tracing decorator touches:
    attribute values, a class namespace, an instance dictionary, the shadow
    key convention and the two attribute lookups the default getters use. */
module Objects {

  datatype Option<T> = None | Some(value: T)

  /** The exceptions the decorator's own code can raise while handling a write. */
  datatype PyError = AttributeError | TypeError | IndexError

  datatype Result<T> = Ok(value: T) | Err(error: PyError)

  /** One half of an installed property: the module's default hook, or a
      callable the user supplied (identified only by a handle, since its code
      is not part of this model). */
  datatype Hook = Default | User(id: nat)

  /** The property object installed for a traced attribute: the attribute it
      was made for (its closures capture that name) and its two hooks. */
  datatype Accessor = Accessor(traced: string, fget: Hook, fset: Hook)

  /** A Python value as far as the decorator can observe it. */
  datatype Value =
    | NoneValue
    | IntValue(i: int)
    | StrValue(s: string)
    | Object(id: nat)
    | PropertyValue(accessor: Accessor)

  /** A `__dict__`: attribute name to value. */
  type Namespace = map<string, Value>

  datatype Class = Class(name: string, ns: Namespace)

  datatype Instance = Instance(id: nat, dict: Namespace)

  /** The reserved key that holds a traced attribute's committed value. */
  function ShadowKey(attribute: string): (k: string)
    ensures |k| == |attribute| + 1 && k[0] == '_' && k[1..] == attribute
    ensures k != attribute
  {
    "_" + attribute
  }

  /** `getattr(cls, key)` on the class itself, `None` standing for AttributeError. */
  function ClassGet(cls: Class, key: string): Option<Value>
  {
    if key in cls.ns then Some(cls.ns[key]) else None
  }

  /** `getattr(obj, key)` for a plain (non-descriptor) class attribute: the
      instance dictionary first, then the class. */
  function InstanceGet(cls: Class, obj: Instance, key: string): (r: Option<Value>)
    ensures key in obj.dict ==> r == Some(obj.dict[key])
    ensures key !in obj.dict ==> r == ClassGet(cls, key)
    ensures r.None? <==> key !in obj.dict && key !in cls.ns
  {
    if key in obj.dict then Some(obj.dict[key]) else ClassGet(cls, key)
  }

  /** A callable passed as a hook: its handle and whether Python's truth
      test finds it true (a callable whose `__bool__` or `__len__` says
      otherwise is falsy). */
  datatype Callable = Callable(id: nat, truthy: bool)

  /** `supplied or default`: `None` and a falsy callable both give way to the
      module's default hook. */
  function HookFor(supplied: Option<Callable>): (h: Hook)
    ensures h.Default? <==> supplied.None? || !supplied.value.truthy
    ensures h.User? ==> h.id == supplied.value.id
  {
    match supplied
    case Some(c) => if c.truthy then User(c.id) else Default
    case None => Default
  }

  /** The outcome of one read through an installed property: the default
      getter's value or exception, or a call into a supplied getter. */
  datatype GetOutcome = Got(value: Value) | GetRaised(error: PyError) | GetDelegated(hook: nat)
}

=== FILE: text.dfy ===
/** The two string operations the decorator applies: `str.lower()` on the
    answer typed at the prompt and `str.strip()` on the source line shown in
    the message. */
module Text {

  /** Python's `str.isspace`: the characters `str.strip()` removes. */
  predicate IsSpace(c: char)
  {
    || ('\U{0009}' <= c <= '\U{000D}')
    || ('\U{001C}' <= c <= '\U{0020}')
    || c == '\U{0085}' || c == '\U{00A0}' || c == '\U{1680}'
    || ('\U{2000}' <= c <= '\U{200A}')
    || c == '\U{2028}' || c == '\U{2029}' || c == '\U{202F}'
    || c == '\U{205F}' || c == '\U{3000}'
  }

  predicate AllSpace(s: string)
  {
    forall i :: 0 <= i < |s| ==> IsSpace(s[i])
  }

  /** No whitespace at either end. */
  predicate Trimmed(s: string)
  {
    s == [] || (!IsSpace(s[0]) && !IsSpace(s[|s| - 1]))
  }

  predicate IsUpper(c: char)
  {
    'A' <= c <= 'Z'
  }

  function LowerChar(c: char): char
  {
    if IsUpper(c) then (c as int + 32) as char else c
  }

  /** `str.lower()` restricted to ASCII letters: no capital survives, and
      every other character is kept in place. */
  function Lower(s: string): (r: string)
    ensures |r| == |s|
    ensures forall i :: 0 <= i < |s| ==> r[i] == LowerChar(s[i])
    ensures forall i :: 0 <= i < |r| ==> !IsUpper(r[i])
    ensures forall i :: 0 <= i < |s| && !IsUpper(s[i]) ==> r[i] == s[i]
  {
    seq(|s|, i requires 0 <= i < |s| => LowerChar(s[i]))
  }

  /** The only spellings that lower to a one-letter lowercase answer are the
      letter itself and its capital. */
  lemma LowerIsLetter(s: string, c: char)
    requires 'a' <= c <= 'z'
    ensures Lower(s) == [c] <==> s == [c] || s == [(c as int - 32) as char]
  {
  }

  /** Removes leading whitespace. */
  function TrimLeft(s: string): (r: string)
    ensures |r| <= |s| && r == s[|s| - |r|..]
    ensures AllSpace(s[..|s| - |r|])
    ensures r == [] || !IsSpace(r[0])
    decreases |s|
  {
    if |s| > 0 && IsSpace(s[0]) then TrimLeft(s[1..]) else s
  }

  /** Removes trailing whitespace. */
  function TrimRight(s: string): (r: string)
    ensures |r| <= |s| && r == s[..|r|]
    ensures AllSpace(s[|r|..])
    ensures r == [] || !IsSpace(r[|r| - 1])
    decreases |s|
  {
    if |s| > 0 && IsSpace(s[|s| - 1]) then TrimRight(s[..|s| - 1]) else s
  }

  /** `str.strip()`: the result is the input with whitespace runs cut from
      both ends, and nothing else. */
  function Strip(s: string): (r: string)
    ensures Trimmed(r)
    ensures |r| <= |s|
  {
    TrimRight(TrimLeft(s))
  }

  lemma {:induction false} TrimLeftOfPadded(a: string, m: string)
    requires AllSpace(a)
    requires m == [] || !IsSpace(m[0])
    ensures TrimLeft(a + m) == m
    decreases |a|
  {
    if |a| > 0 {
      assert (a + m)[1..] == a[1..] + m;
      TrimLeftOfPadded(a[1..], m);
    } else {
      assert a + m == m;
    }
  }

  lemma {:induction false} TrimRightOfPadded(m: string, b: string)
    requires AllSpace(b)
    requires m == [] || !IsSpace(m[|m| - 1])
    ensures TrimRight(m + b) == m
    decreases |b|
  {
    if |b| > 0 {
      assert (m + b)[..|m + b| - 1] == m + b[..|b| - 1];
      TrimRightOfPadded(m, b[..|b| - 1]);
    } else {
      assert m + b == m;
    }
  }

  /** Independent characterisation of `Strip`: whatever whitespace padding
      surrounds a trimmed core, stripping returns exactly that core. */
  lemma StripOfPadded(a: string, m: string, b: string)
    requires AllSpace(a) && AllSpace(b) && Trimmed(m)
    ensures Strip(a + m + b) == m
  {
    if m == [] {
      assert a + m + b == a + b;
      assert AllSpace(a + b);
      TrimLeftOfPadded(a + b, []);
      assert a + b + [] == a + b;
      assert TrimLeft(a + b) == [];
    } else {
      assert a + m + b == a + (m + b);
      TrimLeftOfPadded(a, m + b);
      TrimRightOfPadded(m, b);
    }
  }

  /** `Strip` only removes whitespace: the input is the result padded on both
      sides by whitespace. */
  lemma StripIsCore(s: string)
    ensures exists i :: 0 <= i <= |s| - |Strip(s)| && s[i..i + |Strip(s)|] == Strip(s)
                          && AllSpace(s[..i]) && AllSpace(s[i + |Strip(s)|..])
  {
    var l := TrimLeft(s);
    var r := TrimRight(l);
    var i := |s| - |l|;
    assert s[i..] == l;
    assert s[i..i + |r|] == l[..|r|];
    assert s[i + |r|..] == l[|r|..];
  }

  /** Stripping twice is stripping once. */
  lemma StripIdempotent(s: string)
    ensures Strip(Strip(s)) == Strip(s)
  {
  }
}

=== FILE: tracer.dfy ===
/** The legacy module `tracer/tracer.py`, the one the demo script imports.
    It differs from the packaged module in two places: its default getter
    ignores the instance and reads the class, and its message carries the
    class instead of the instance and no old value. */
module Tracer {
  import opened Objects
  import Frames
  import opened Decisions
  import Decoration

  /** The fields passed to the message template: there is no `current`. */
  datatype Message = Message(
    cls: string, attribute: string, proposed: Value,
    filename: string, lineno: int, funcname: string, code: string)

  /** `default_getter(_)`: `getattr(cls, "_" + attribute)`, whatever the
      argument. */
  function DefaultGetter(cls: Class, attribute: string): (r: Result<Value>)
    ensures ShadowKey(attribute) in cls.ns ==> r == Ok(cls.ns[ShadowKey(attribute)])
    ensures ShadowKey(attribute) !in cls.ns ==> r == Err(AttributeError)
  {
    match ClassGet(cls, ShadowKey(attribute))
    case Some(v) => Ok(v)
    case None => Err(AttributeError)
  }

  /** The template arguments; only the source line can fail. */
  function BuildMessage(cls: Class, attribute: string, proposed: Value, site: Frames.Frame): (r: Result<Message>)
    ensures r.Err? <==> Frames.SourceLine(site).Err?
    ensures r.Err? ==> r.error == Frames.SourceLine(site).error
    ensures r.Ok? ==>
              && r.value.cls == cls.name && r.value.attribute == attribute && r.value.proposed == proposed
              && r.value.filename == site.filename && r.value.lineno == site.lineno
              && r.value.funcname == site.funcname
              && Ok(r.value.code) == Frames.SourceLine(site)
  {
    match Frames.SourceLine(site)
    case Err(e) => Err(e)
    case Ok(code) => Ok(Message(cls.name, attribute, proposed, site.filename, site.lineno, site.funcname, code))
  }

  /** `default_setter(_, new)`: the instance written through plays no part. */
  function DefaultSetter(cls: Class, attribute: string, proposed: Value,
                         stack: seq<Frames.Frame>, line: string): (r: SetOutcome<Message>)
    requires |stack| > 0
    ensures r.Raised? || r.Decided?
    ensures var built := BuildMessage(cls, attribute, proposed, Frames.Locate(stack, Frames.SetterDepth));
            && (r.Raised? <==> built.Err?)
            && (r.Raised? ==> r.error == built.error && r.ns == cls.ns)
            && (r.Decided? ==> r.emitted == Transcript(built.value, r.decision))
    ensures r.Decided? ==> r.decision == Decide(line)
    ensures r.Decided? && r.decision == Commit ==> r.ns == cls.ns[ShadowKey(attribute) := proposed]
    ensures r.Decided? && r.decision != Commit ==> r.ns == cls.ns
  {
    var site := Frames.Locate(stack, Frames.SetterDepth);
    match BuildMessage(cls, attribute, proposed, site)
    case Err(e) => Raised(e, cls.ns)
    case Ok(m) =>
      var d := Decide(line);
      Decided(d, Apply(d, cls.ns, ShadowKey(attribute), proposed), Transcript(m, d))
  }

  /** Reading the traced attribute through an instance. */
  function Get(cls: Class, obj: Instance, acc: Accessor): (r: GetOutcome)
    ensures r.GetDelegated? <==> acc.fget.User?
    ensures r.GetDelegated? ==> r.hook == acc.fget.id
    ensures r.Got? ==> Ok(r.value) == DefaultGetter(cls, acc.traced)
    ensures r.GetRaised? ==> Err(r.error) == DefaultGetter(cls, acc.traced)
  {
    match acc.fget
    case User(id) => GetDelegated(id)
    case Default =>
      match DefaultGetter(cls, acc.traced)
      case Ok(v) => Got(v)
      case Err(e) => GetRaised(e)
  }

  /** Assigning the traced attribute through an instance. */
  function Set(cls: Class, obj: Instance, acc: Accessor, proposed: Value,
               stack: seq<Frames.Frame>, line: string): (r: SetOutcome<Message>)
    requires |stack| > 0
    ensures r.Delegated? <==> acc.fset.User?
    ensures r.Delegated? ==> r.hook == acc.fset.id
    ensures acc.fset.Default? ==> r == DefaultSetter(cls, acc.traced, proposed, stack, line)
  {
    match acc.fset
    case User(id) => Delegated(id)
    case Default => DefaultSetter(cls, acc.traced, proposed, stack, line)
  }

  /** With the default hooks, which instance is used makes no difference to
      a read or to a write. */
  lemma InstanceIrrelevant(cls: Class, a: Instance, b: Instance, acc: Accessor, proposed: Value,
                           stack: seq<Frames.Frame>, line: string)
    requires |stack| > 0 && acc.fget.Default? && acc.fset.Default?
    ensures Get(cls, a, acc) == Get(cls, b, acc)
    ensures Set(cls, a, acc, proposed, stack, line) == Set(cls, b, acc, proposed, stack, line)
  {
  }

  /** Right after decoration with the default getter (none supplied, or a
      falsy one), every instance reads
      the value the class had before decoration, or `None`. */
  lemma SeedFidelity(cls: Class, attribute: string, getter: Option<Callable>, setter: Option<Callable>, obj: Instance)
    requires getter.None? || !getter.value.truthy
    ensures var c := Decoration.Decorate(cls, attribute, getter, setter);
            Get(c, obj, c.ns[attribute].accessor) == Got(Decoration.Seed(cls, attribute))
  {
  }

  /** A commit made through any instance is read back through every
      instance, including ones with their own shadow entry. */
  lemma CommitIsVisible(cls: Class, writer: Instance, acc: Accessor, proposed: Value,
                        stack: seq<Frames.Frame>, line: string, reader: Instance)
    requires |stack| > 0 && acc.fget.Default? && acc.fset.Default?
    requires Frames.SourceLine(Frames.Locate(stack, Frames.SetterDepth)).Ok?
    requires line == "y" || line == "Y"
    ensures Get(Class(cls.name, Set(cls, writer, acc, proposed, stack, line).ns), reader, acc) == Got(proposed)
  {
  }

  /** A write that is not committed leaves every read as it was. */
  lemma RejectedWriteKeepsReads(cls: Class, writer: Instance, acc: Accessor, proposed: Value,
                                stack: seq<Frames.Frame>, line: string, reader: Instance)
    requires |stack| > 0 && acc.fset.Default?
    requires line != "y" && line != "Y"
    ensures var r := Set(cls, writer, acc, proposed, stack, line);
            !r.Delegated? && Get(Class(cls.name, r.ns), reader, acc) == Get(cls, reader, acc)
  {
  }

  /** Each hook is chosen on its own: a truthy supplied getter takes every
      read, and a truthy supplied setter takes every write. With no setter, or
      a falsy one, writes run the default setter, so the message, prompt and
      decision happen exactly when no truthy setter was supplied. */
  lemma SuppliedHooksReplaceDefaults(cls: Class, attribute: string, getter: Option<Callable>, setter: Option<Callable>,
                                     obj: Instance, proposed: Value, stack: seq<Frames.Frame>, line: string)
    requires |stack| > 0
    ensures var c := Decoration.Decorate(cls, attribute, getter, setter);
            var acc := c.ns[attribute].accessor;
            && (getter.Some? && getter.value.truthy ==> Get(c, obj, acc) == GetDelegated(getter.value.id))
            && (setter.Some? && setter.value.truthy ==> Set(c, obj, acc, proposed, stack, line) == Delegated(setter.value.id))
            && (Set(c, obj, acc, proposed, stack, line).Delegated? <==> setter.Some? && setter.value.truthy)
            && (!(setter.Some? && setter.value.truthy) ==> Set(c, obj, acc, proposed, stack, line) == DefaultSetter(c, attribute, proposed, stack, line))
            && (Get(c, obj, acc).GetDelegated? <==> getter.Some? && getter.value.truthy)
            && (!(getter.Some? && getter.value.truthy) ==>
                  match DefaultGetter(c, attribute)
                  case Ok(v) => Get(c, obj, acc) == Got(v)
                  case Err(e) => Get(c, obj, acc) == GetRaised(e))
  {
  }

  /** With the default setter, one write through the property is one step
      of a session: it leaves the namespace a one-write session leaves, and
      it ends the program exactly when that session does. */
  lemma SetIsSessionStep(cls: Class, obj: Instance, acc: Accessor, proposed: Value,
                         stack: seq<Frames.Frame>, line: string)
    requires |stack| > 0 && acc.fset.Default?
    requires Frames.SourceLine(Frames.Locate(stack, Frames.SetterDepth)).Ok?
    ensures var r := Set(cls, obj, acc, proposed, stack, line);
            var e := Replay(cls.ns, ShadowKey(acc.traced), [Attempt(proposed, line)]);
            && r.Decided? && r.ns == e.ns && (r.decision == Quit <==> e.exited)
  {
  }

  /** A sequence of assignments through the property, each from its own
      instance and call site and each answered at the prompt. The session
      ends at the first quit. It also stops at an exception out of the setter,
      reported as exited although a caller could catch it, and at a supplied
      setter, whose effect is outside this model: there the namespace is
      reported unchanged and not exited, meaning only that the session is no
      longer followed. */
  function Session(cls: Class, acc: Accessor, writes: seq<Write>): SessionEnd
    decreases |writes|
  {
    if |writes| == 0 then SessionEnd(cls.ns, false)
    else
      var w := writes[0];
      match Set(cls, w.obj, acc, w.attempt.proposed, w.stack, w.attempt.line)
      case Delegated(_) => SessionEnd(cls.ns, false)
      case Raised(_, ns) => SessionEnd(ns, true)
      case Decided(d, ns, _) =>
        if d == Quit then SessionEnd(ns, true)
        else Session(Class(cls.name, ns), acc, writes[1..])
  }

  /** One write of a session: with the default setter and a message that
      builds, the write reaches the decision its answer selects. A quit ends
      the session with the namespace as it stood. Any other decision applies
      its effect, and the session goes on with the remaining writes. */
  lemma SessionStep(cls: Class, acc: Accessor, writes: seq<Write>)
    requires acc.fset.Default? && |writes| > 0 && SiteReadable(writes[0])
    ensures var a := writes[0].attempt;
            var d := Decide(a.line);
            Session(cls, acc, writes)
            == if d == Quit then SessionEnd(cls.ns, true)
               else Session(Class(cls.name, Apply(d, cls.ns, ShadowKey(acc.traced), a.proposed)), acc, writes[1..])
  {
  }

  /** With the default setter and with a readable source line at every call site, a session of
      real property writes is exactly the decision-level replay of its
      answers, so what `ReplayLandsLastCommit` and `ReplayStopsAtQuit` state
      holds of it. */
  lemma {:induction false} SessionIsReplay(cls: Class, acc: Accessor, writes: seq<Write>)
    requires acc.fset.Default?
    requires forall i :: 0 <= i < |writes| ==> SiteReadable(writes[i])
    ensures Session(cls, acc, writes) == Replay(cls.ns, ShadowKey(acc.traced), AttemptsOf(writes))
    decreases |writes|
  {
    if |writes| > 0 {
      var a := writes[0].attempt;
      var d := Decide(a.line);
      var ns1 := Apply(d, cls.ns, ShadowKey(acc.traced), a.proposed);
      var rest := writes[1..];
      SessionStep(cls, acc, writes);
      assert AttemptsOf(writes)[0] == a;
      assert AttemptsOf(writes)[1..] == AttemptsOf(rest);
      if d != Quit {
        forall i | 0 <= i < |rest|
          ensures rest[i] == writes[i + 1]
        {
        }
        SessionIsReplay(Class(cls.name, ns1), acc, rest);
      }
    }
  }
}

=== FILE: tracers.dfy ===
/** The packaged module `tracers/tracers.py`. Its default getter reads the
    shadow key through the instance, and its message shows the value being
    replaced. */
module Tracers {
  import opened Objects
  import Frames
  import opened Decisions
  import Decoration

  /** The fields passed to the message template. `obj` identifies the
      instance written through; `current` is the shadow value it sees. */
  datatype Message = Message(
    obj: nat, attribute: string, current: Value, proposed: Value,
    filename: string, lineno: int, funcname: string, code: string)

  /** `default_getter(obj)`: `getattr(obj, "_" + attribute)`. */
  function DefaultGetter(cls: Class, obj: Instance, attribute: string): (r: Result<Value>)
    ensures ShadowKey(attribute) in obj.dict ==> r == Ok(obj.dict[ShadowKey(attribute)])
    ensures (ShadowKey(attribute) !in obj.dict && ShadowKey(attribute) in cls.ns)
              ==> r == Ok(cls.ns[ShadowKey(attribute)])
    ensures r.Err? <==> ShadowKey(attribute) !in obj.dict && ShadowKey(attribute) !in cls.ns
    ensures r.Err? ==> r.error == AttributeError
  {
    match InstanceGet(cls, obj, ShadowKey(attribute))
    case Some(v) => Ok(v)
    case None => Err(AttributeError)
  }

  /** The template arguments, evaluated in the order they are written: the
      current value is looked up before the source line is taken. */
  function BuildMessage(cls: Class, obj: Instance, attribute: string, proposed: Value, site: Frames.Frame): (r: Result<Message>)
    ensures r.Err? <==> DefaultGetter(cls, obj, attribute).Err? || Frames.SourceLine(site).Err?
    ensures DefaultGetter(cls, obj, attribute).Err? ==> r == Err(AttributeError)
    ensures r.Ok? ==>
              && r.value.obj == obj.id && r.value.attribute == attribute && r.value.proposed == proposed
              && Ok(r.value.current) == DefaultGetter(cls, obj, attribute)
              && r.value.filename == site.filename && r.value.lineno == site.lineno
              && r.value.funcname == site.funcname
              && Ok(r.value.code) == Frames.SourceLine(site)
  {
    match DefaultGetter(cls, obj, attribute)
    case Err(e) => Err(e)
    case Ok(current) =>
      match Frames.SourceLine(site)
      case Err(e) => Err(e)
      case Ok(code) => Ok(Message(obj.id, attribute, current, proposed, site.filename, site.lineno, site.funcname, code))
  }

  /** `default_setter(obj, new)`. `stack` is the call stack as `get_caller`
      sees it and `line` is what the user types at the prompt. Whatever the
      setter writes goes to the class, never to the instance. */
  function DefaultSetter(cls: Class, obj: Instance, attribute: string, proposed: Value,
                         stack: seq<Frames.Frame>, line: string): (r: SetOutcome<Message>)
    requires |stack| > 0
    ensures r.Raised? || r.Decided?
    ensures var built := BuildMessage(cls, obj, attribute, proposed, Frames.Locate(stack, Frames.SetterDepth));
            && (r.Raised? <==> built.Err?)
            && (r.Raised? ==> r.error == built.error && r.ns == cls.ns)
            && (r.Decided? ==> r.emitted == Transcript(built.value, r.decision))
    ensures r.Decided? ==> r.decision == Decide(line)
    ensures r.Decided? && r.decision == Commit ==> r.ns == cls.ns[ShadowKey(attribute) := proposed]
    ensures r.Decided? && r.decision != Commit ==> r.ns == cls.ns
  {
    var site := Frames.Locate(stack, Frames.SetterDepth);
    match BuildMessage(cls, obj, attribute, proposed, site)
    case Err(e) => Raised(e, cls.ns)
    case Ok(m) =>
      var d := Decide(line);
      Decided(d, Apply(d, cls.ns, ShadowKey(attribute), proposed), Transcript(m, d))
  }

  /** Reading the traced attribute through an instance. */
  function Get(cls: Class, obj: Instance, acc: Accessor): (r: GetOutcome)
    ensures r.GetDelegated? <==> acc.fget.User?
    ensures r.GetDelegated? ==> r.hook == acc.fget.id
    ensures r.Got? ==> Ok(r.value) == DefaultGetter(cls, obj, acc.traced)
    ensures r.GetRaised? ==> Err(r.error) == DefaultGetter(cls, obj, acc.traced)
  {
    match acc.fget
    case User(id) => GetDelegated(id)
    case Default =>
      match DefaultGetter(cls, obj, acc.traced)
      case Ok(v) => Got(v)
      case Err(e) => GetRaised(e)
  }

  /** Assigning the traced attribute through an instance: a supplied setter
      replaces the whole decision protocol. */
  function Set(cls: Class, obj: Instance, acc: Accessor, proposed: Value,
               stack: seq<Frames.Frame>, line: string): (r: SetOutcome<Message>)
    requires |stack| > 0
    ensures r.Delegated? <==> acc.fset.User?
    ensures r.Delegated? ==> r.hook == acc.fset.id
    ensures acc.fset.Default? ==> r == DefaultSetter(cls, obj, acc.traced, proposed, stack, line)
  {
    match acc.fset
    case User(id) => Delegated(id)
    case Default => DefaultSetter(cls, obj, acc.traced, proposed, stack, line)
  }

  /** Right after decoration with the default getter (none supplied, or a
      falsy one), reading through an
      instance that holds no shadow entry of its own returns the value the
      class had before decoration, or `None`. */
  lemma SeedFidelity(cls: Class, attribute: string, getter: Option<Callable>, setter: Option<Callable>, obj: Instance)
    requires getter.None? || !getter.value.truthy
    requires ShadowKey(attribute) !in obj.dict
    ensures var c := Decoration.Decorate(cls, attribute, getter, setter);
            Get(c, obj, c.ns[attribute].accessor) == Got(Decoration.Seed(cls, attribute))
  {
  }

  /** After a commit, every instance without its own shadow entry reads the
      committed value. */
  lemma CommitIsVisible(cls: Class, obj: Instance, acc: Accessor, proposed: Value,
                        stack: seq<Frames.Frame>, line: string, reader: Instance)
    requires |stack| > 0 && acc.fget.Default? && acc.fset.Default?
    requires DefaultGetter(cls, obj, acc.traced).Ok? && Frames.SourceLine(Frames.Locate(stack, Frames.SetterDepth)).Ok?
    requires line == "y" || line == "Y"
    requires ShadowKey(acc.traced) !in reader.dict
    ensures Get(Class(cls.name, Set(cls, obj, acc, proposed, stack, line).ns), reader, acc) == Got(proposed)
  {
  }

  /** Because the getter reads through the instance, an instance that holds
      its own shadow entry keeps reading that entry: a commit, which writes
      the class, does not show through it. */
  lemma InstanceEntryHidesCommit(cls: Class, obj: Instance, acc: Accessor, proposed: Value,
                                 stack: seq<Frames.Frame>, line: string)
    requires |stack| > 0 && acc.fget.Default? && acc.fset.Default?
    requires ShadowKey(acc.traced) in obj.dict
    ensures Get(Class(cls.name, Set(cls, obj, acc, proposed, stack, line).ns), obj, acc)
            == Got(obj.dict[ShadowKey(acc.traced)])
  {
  }

  /** A write that is not committed, whether dropped, quit, unrecognised or
      failed before the prompt, leaves every read as it was. */
  lemma RejectedWriteKeepsReads(cls: Class, obj: Instance, acc: Accessor, proposed: Value,
                                stack: seq<Frames.Frame>, line: string, reader: Instance)
    requires |stack| > 0 && acc.fset.Default?
    requires line != "y" && line != "Y"
    ensures var r := Set(cls, obj, acc, proposed, stack, line);
            !r.Delegated? && Get(Class(cls.name, r.ns), reader, acc) == Get(cls, reader, acc)
  {
  }

  /** Each hook is chosen on its own: a truthy supplied getter takes every
      read, and a truthy supplied setter takes every write. With no setter, or
      a falsy one, writes run the default setter, so the message, prompt and
      decision happen exactly when no truthy setter was supplied. */
  lemma SuppliedHooksReplaceDefaults(cls: Class, attribute: string, getter: Option<Callable>, setter: Option<Callable>,
                                     obj: Instance, proposed: Value, stack: seq<Frames.Frame>, line: string)
    requires |stack| > 0
    ensures var c := Decoration.Decorate(cls, attribute, getter, setter);
            var acc := c.ns[attribute].accessor;
            && (getter.Some? && getter.value.truthy ==> Get(c, obj, acc) == GetDelegated(getter.value.id))
            && (setter.Some? && setter.value.truthy ==> Set(c, obj, acc, proposed, stack, line) == Delegated(setter.value.id))
            && (Set(c, obj, acc, proposed, stack, line).Delegated? <==> setter.Some? && setter.value.truthy)
            && (!(setter.Some? && setter.value.truthy) ==> Set(c, obj, acc, proposed, stack, line) == DefaultSetter(c, obj, attribute, proposed, stack, line))
            && (Get(c, obj, acc).GetDelegated? <==> getter.Some? && getter.value.truthy)
            && (!(getter.Some? && getter.value.truthy) ==>
                  match DefaultGetter(c, obj, attribute)
                  case Ok(v) => Get(c, obj, acc) == Got(v)
                  case Err(e) => Get(c, obj, acc) == GetRaised(e))
  {
  }

  /** With the default setter, one write through the property is one step
      of a session: it leaves the namespace a one-write session leaves, and
      it ends the program exactly when that session does. */
  lemma SetIsSessionStep(cls: Class, obj: Instance, acc: Accessor, proposed: Value,
                         stack: seq<Frames.Frame>, line: string)
    requires |stack| > 0 && acc.fset.Default?
    requires DefaultGetter(cls, obj, acc.traced).Ok? && Frames.SourceLine(Frames.Locate(stack, Frames.SetterDepth)).Ok?
    ensures var r := Set(cls, obj, acc, proposed, stack, line);
            var e := Replay(cls.ns, ShadowKey(acc.traced), [Attempt(proposed, line)]);
            && r.Decided? && r.ns == e.ns && (r.decision == Quit <==> e.exited)
  {
  }

  /** A sequence of assignments through the property, each from its own
      instance and call site and each answered at the prompt. The session
      ends at the first quit. It also stops at an exception out of the setter,
      reported as exited although a caller could catch it, and at a supplied
      setter, whose effect is outside this model: there the namespace is
      reported unchanged and not exited, meaning only that the session is no
      longer followed. */
  function Session(cls: Class, acc: Accessor, writes: seq<Write>): SessionEnd
    decreases |writes|
  {
    if |writes| == 0 then SessionEnd(cls.ns, false)
    else
      var w := writes[0];
      match Set(cls, w.obj, acc, w.attempt.proposed, w.stack, w.attempt.line)
      case Delegated(_) => SessionEnd(cls.ns, false)
      case Raised(_, ns) => SessionEnd(ns, true)
      case Decided(d, ns, _) =>
        if d == Quit then SessionEnd(ns, true)
        else Session(Class(cls.name, ns), acc, writes[1..])
  }

  /** One write of a session: with the default setter and a message that
      builds, the write reaches the decision its answer selects. A quit ends
      the session with the namespace as it stood. Any other decision applies
      its effect, and the session goes on with the remaining writes. */
  lemma SessionStep(cls: Class, acc: Accessor, writes: seq<Write>)
    requires acc.fset.Default? && |writes| > 0 && SiteReadable(writes[0])
    requires ShadowKey(acc.traced) in writes[0].obj.dict || ShadowKey(acc.traced) in cls.ns
    ensures var a := writes[0].attempt;
            var d := Decide(a.line);
            Session(cls, acc, writes)
            == if d == Quit then SessionEnd(cls.ns, true)
               else Session(Class(cls.name, Apply(d, cls.ns, ShadowKey(acc.traced), a.proposed)), acc, writes[1..])
  {
  }

  /** With the default setter and with a message that builds for every write, a session of
      real property writes is exactly the decision-level replay of its
      answers, so what `ReplayLandsLastCommit` and `ReplayStopsAtQuit` state
      holds of it. */
  lemma {:induction false} SessionIsReplay(cls: Class, acc: Accessor, writes: seq<Write>)
    requires acc.fset.Default?
    requires forall i :: 0 <= i < |writes| ==> SiteReadable(writes[i])
    requires forall i :: 0 <= i < |writes| ==>
               ShadowKey(acc.traced) in writes[i].obj.dict || ShadowKey(acc.traced) in cls.ns
    ensures Session(cls, acc, writes) == Replay(cls.ns, ShadowKey(acc.traced), AttemptsOf(writes))
    decreases |writes|
  {
    if |writes| > 0 {
      var a := writes[0].attempt;
      var d := Decide(a.line);
      var ns1 := Apply(d, cls.ns, ShadowKey(acc.traced), a.proposed);
      var rest := writes[1..];
      SessionStep(cls, acc, writes);
      assert AttemptsOf(writes)[0] == a;
      assert AttemptsOf(writes)[1..] == AttemptsOf(rest);
      if d != Quit {
        forall i | 0 <= i < |rest|
          ensures rest[i] == writes[i + 1]
        {
        }
        SessionIsReplay(Class(cls.name, ns1), acc, rest);
      }
    }
  }
}
